=== FILE: README.md ===
# Clinical waste dashboard: derivation layer, modelled in Dafny

The Clinical Waste Intelligence front end receives aggregated statistics and
alert lists from its server and derives the numbers and colours it shows:

- the 7-day trend chart rows, pivoted from (date, waste type, quantity) items
  into one row per weekday label;
- the sustainability score, with its fallback of 82;
- the cost impact, at a flat 2.5 per kilogram;
- the department cards: performance against a fixed 50 kg, the over-performing
  badge and the capped progress bar;
- the "vs yesterday" indicator;
- the risk bands (high from 70, medium from 50, low below) used in three places:
  the analysis result view of the waste-logging page, the alert card colour
  and the alert badge;
- the alert-center summary counts and the status filter chosen with the tabs.

This project models that layer and proves its properties.

Files:

- `common.dfy`: `Common`, the JavaScript side of the numbers.
  `Option` stands for `undefined`.
  `Round` is Math.round, which rounds ties upwards.
  `ToFixed1` is the value that `toFixed(1)` prints; it rounds half away from zero.
  `Sum` is the `reduce` sum.
- `trend.dfy`: `DashboardTrend`, the trend pivot. This is the one
  imperative piece. `GetTrendChartData` fills a local dictionary and its
  key order in a loop, and is proved equal to the specification function
  `Pivot`. The lemmas state what `Pivot` promises.
- `dashboard.dfy`: `DashboardMetrics`, the score, the cost, the
  indicator and the department panel.
- `risk.dfy`: `RiskBands`, the single classifier and the `aiAnalysis` record the server attaches to a waste entry, which both pages read.
- `logwaste.dfy`: `LogWaste`, the result view's colour and badge.
- `alerts.dfy`: `Alerts`, the alert center.
- `risk_views.dfy`: `RiskViews`, which states that the copies in the two pages agree.

Numbers are exact `real`s. The weekday name of a date depends on the locale
and time zone, so `GetTrendChartData` takes it as a parameter `dayName`.

A chart row is a JavaScript object, modelled as `map<string, Cell>`. So a
waste type named `day` would overwrite the row's label, and the lemmas
state the `day` field with that proviso.

A repeated (day, waste type) entry overwrites the earlier quantity, because
src/pages/Dashboard.js:74 assigns the quantity to the field rather than adding
to it. So the last entry wins, as `BucketLastWriteWins` and
`RepeatedEntryOverwrites` state.

## Model

| member | source | states |
|---|---|---|
| `Common.Round` | src/pages/Dashboard.js:90 | Math.round gives the integer within (x − ½, x + ½], so ties go up |
| `Common.RoundMonotone` | src/pages/Dashboard.js:90 | Math.round never decreases as its argument grows |
| `Common.Tenths` | src/pages/Dashboard.js:288 | the tenths count of toFixed(1): within (10x − ½, 10x + ½] for x ≥ 0 and [10x − ½, 10x + ½) for x < 0 |
| `Common.ToFixed1` | src/pages/Dashboard.js:288 | the one-decimal rendering is a whole number of tenths nearest to the exact value: within (x − 0.05, x + 0.05] for x ≥ 0 and [x − 0.05, x + 0.05) for x < 0, so ties go away from zero |
| `Common.ToFixed1Negate` | src/pages/Dashboard.js:288 | toFixed(1) of −x is −(toFixed(1) of x) |
| `Common.ToFixed1Positive` | src/pages/Dashboard.js:288-290 | the one-decimal rendering is above 0 iff x ≥ 0.05 |
| `Common.AtLeast` | src/pages/Alerts.js:141-143 | a `>=` against a possibly undefined score: false when the score is undefined, otherwise the plain comparison |
| `Common.Truthy` | src/pages/LogWaste.js:162 | a possibly undefined string is truthy iff it is defined and non-empty (a definition, no contract of its own) |
| `Common.Abs` | src/pages/Dashboard.js:302 | Math.abs: a non-negative value equal to x or −x |
| `Common.Min` | src/pages/Dashboard.js:315 | Math.min: a value at most both arguments and equal to one of them |
| `Common.Sum` | src/pages/Dashboard.js:83 | the `reduce` sum; non-negative when every summand is |
| `DashboardTrend.FreshRow` | src/pages/Dashboard.js:72 | the row `{ day: dayName }` a label gets when first seen (a definition; `BucketBeforeFirstSight` states its use) |
| `DashboardTrend.LabelOf` | src/pages/Dashboard.js:69 | the weekday label of an item is `dayName` of its date, the locale-dependent conversion taken as a parameter (a definition) |
| `DashboardTrend.Labels` | src/pages/Dashboard.js:67-77 | reference definition of the key order of `dateMap`: labels in first-seen order; `LabelsComplete`, `LabelsDistinct` and `LabelsFirstSeenOrder` state its properties |
| `DashboardTrend.Bucket` | src/pages/Dashboard.js:71-74 | reference definition of one row after all items are written into it; `BucketFields`, `BucketLastWriteWins` and `BucketDayField` state its properties |
| `DashboardTrend.Pivot` | src/pages/Dashboard.js:77 | reference definition of `Object.values(dateMap)`: each label's bucket, in label order; `PivotSize` states its size and `GetTrendChartData` is proved equal to it |
| `DashboardTrend.GetTrendChartData` | src/pages/Dashboard.js:63-78 | no trend gives []; otherwise the rows the dictionary loop builds are exactly `Pivot`: one row per first-seen label, each the label's bucket |
| `DashboardTrend.BucketBeforeFirstSight` | src/pages/Dashboard.js:71-72 | a label not met yet still holds its fresh row `{day: label}` |
| `DashboardTrend.LabelsComplete` | src/pages/Dashboard.js:66-77 | a label has a row iff some item's date has that label |
| `DashboardTrend.LabelsDistinct` | src/pages/Dashboard.js:71-73 | no label gets two rows |
| `DashboardTrend.LabelsFirstSeenOrder` | src/pages/Dashboard.js:67-77 | rows are in first-seen order: the first item of an earlier row's label precedes every item of a later row's label |
| `DashboardTrend.BucketFields` | src/pages/Dashboard.js:71-74 | a row has a field iff it is `day` or some item of that label has it as waste type; unseen types are absent, not zero |
| `DashboardTrend.BucketLastWriteWins` | src/pages/Dashboard.js:74 | a field holds the quantity of the last item of that label and type; earlier quantities are overwritten |
| `DashboardTrend.BucketDayField` | src/pages/Dashboard.js:72-74 | the `day` field equals the row's label unless an item of the label has waste type `day` |
| `DashboardTrend.PivotSize` | src/pages/Dashboard.js:197 | at most one row per item, and at least one row iff there is an item, so the chart is drawn exactly for a non-empty trend |
| `DashboardTrend.RepeatedEntryOverwrites` | src/pages/Dashboard.js:74 | two Sharps entries of 3 and 4 kg on one weekday give a row with 4, not 7 |
| `DashboardMetrics.FindQuantity` | src/pages/Dashboard.js:86-87 | the quantity of the first entry with the id, 0 when none has it |
| `DashboardMetrics.CompositionTotal` | src/pages/Dashboard.js:83 | the `reduce` total of the composition, non-negative when every quantity is |
| `DashboardMetrics.Percentage` | src/pages/Dashboard.js:89 | the recycling rate `part / whole × 100`: a part between 0 and the whole gives a rate in [0, 100] |
| `DashboardMetrics.SustainabilityScore` | src/pages/Dashboard.js:80-91 | exactly 82 when the composition is missing or totals zero; otherwise the integer nearest (ties up) to (Recyclable + General) / total × 100, a missing type counting 0 |
| `DashboardMetrics.TwoFindsWithinTotal` | src/pages/Dashboard.js:83-87 | with non-negative quantities, the Recyclable and General quantities are each ≥ 0 and together at most the total |
| `DashboardMetrics.SustainabilityScoreInRange` | src/pages/Dashboard.js:83-90 | with non-negative quantities the score lies in [0, 100] |
| `DashboardMetrics.SustainabilityScoreExample` | src/pages/Dashboard.js:83-90 | Recyclable 30, General 20, Sharps 50 kg score 50 |
| `DashboardMetrics.TotalKg` | src/pages/Dashboard.js:96 | the `reduce` total of the department loads, non-negative when every load is |
| `DashboardMetrics.CostImpact` | src/pages/Dashboard.js:93-99 | 0 without department data, otherwise the whole amount within ½ of 2.5 × total kg |
| `DashboardMetrics.CostMonotoneInTotal` | src/pages/Dashboard.js:96-98 | the cost depends only on the total kilograms and does not decrease as it grows |
| `DashboardMetrics.CostGrowsWithDepartments` | src/pages/Dashboard.js:96-98 | appending departments with non-negative loads never lowers the cost |
| `DashboardMetrics.ChangeIndicatorOf` | src/pages/Dashboard.js:142-155 | "No change" iff percentChange is undefined or 0; up iff positive, down iff negative; the shown figure is \|percentChange\| > 0 |
| `DashboardMetrics.PerformancePct` | src/pages/Dashboard.js:286-289 | the saving is a whole number of tenths nearest to (50 − total) / 50 × 100, with a tie going away from zero (the half-open bounds of `ToFixed1`) |
| `DashboardMetrics.IsOverPerforming` | src/pages/Dashboard.js:290 | over-performing iff the total is at most 49.975 kg, where the rounded saving first exceeds 0 |
| `DashboardMetrics.ProgressWidth` | src/pages/Dashboard.js:315 | the bar width never exceeds 100, is 2 × total up to 50 kg, is full from 50 kg on, and is non-negative for a non-negative load |
| `DashboardMetrics.DepartmentCard` | src/pages/Dashboard.js:285-318 | one card: the department's name; over-performing iff total ≤ 49.975; a '-' (green) badge exactly when over-performing; a non-negative badge figure whose sign and magnitude read the one-decimal excess (total − 50) / 50 × 100; the kg text toFixed(1) of the total; the alert count, 0 when absent; the bar width `ProgressWidth` of the total |
| `DashboardMetrics.DepartmentPanel` | src/pages/Dashboard.js:283-326 | no cards when the data is missing or empty; otherwise one card per department, in order, each showing that department's figures as `DepartmentCard` states them: name, over-performing flag iff total ≤ 49.975, badge sign and figure reading the one-decimal excess, toFixed(1) kg, alert count (0 when absent), and bar width `ProgressWidth` of the total, at most 100 |
| `DashboardMetrics.DepartmentCardExample` | src/pages/Dashboard.js:286-315 | a 70 kg day reads −40.0, is not over-performing, shows "+40" and a full bar |
| `RiskBands.Classify` | src/pages/LogWaste.js:111-121 | high iff score ≥ 70, medium iff 50 ≤ score < 70, low iff score < 50 |
| `RiskBands.ClassifyMonotone` | src/pages/LogWaste.js:111-121 | a higher score never falls in a lower band |
| `RiskBands.ClassifyBoundaries` | src/pages/LogWaste.js:118-120 | 50 is medium and 70 is high (inclusive lower bounds); below 50 is low, [50, 70) is medium |
| `LogWaste.ScoreBand` | src/pages/LogWaste.js:111-121 | a present score falls in its `Classify` band; an undefined score fails both comparisons and falls in the low band |
| `LogWaste.RiskColor` | src/pages/LogWaste.js:111-115 | the panel colour is red, orange or green as the (possibly undefined) score's band is high, medium or low |
| `LogWaste.GetRiskBadge` | src/pages/LogWaste.js:117-121 | "High Risk" iff the score is defined and ≥ 70, "Medium Risk" iff it is defined and in [50, 70), "Low Risk" otherwise (below 50 or undefined), each with its band's colour |
| `LogWaste.PanelAgreesWithBadge` | src/pages/LogWaste.js:111-121 | panel colour and badge name the same band for every score, defined or not |
| `LogWaste.AnalysisView` | src/pages/LogWaste.js:110-168 | the result view is shown iff `showAnalysis` is set and an analysis is held; it shows the score as received, its panel and badge both show the score's band, and the "Alert Created" box is drawn, with the message, iff the message is defined and non-empty |
| `Alerts.IsAnomaly` | src/pages/Alerts.js:66 | the filter callback `aiAnalysis?.anomalyDetected`: false without analysis, otherwise the analysis's flag |
| `Alerts.AnomalyAlerts` | src/pages/Alerts.js:66 | the filtered alerts are the anomaly-flagged ones; no more than those loaded; none iff none is flagged; all iff all are |
| `Alerts.AnomalyAlertsMultiplicity` | src/pages/Alerts.js:66 | the filter keeps every copy of a flagged alert and no copy of an unflagged one |
| `Alerts.AnomalyCountAdditive` | src/pages/Alerts.js:66 | the Active count of two lists loaded together is the sum of their counts |
| `Alerts.AnomalyCountSnoc` | src/pages/Alerts.js:66 | one more loaded alert raises the Active count by 1 if it is flagged, by 0 otherwise |
| `Alerts.AnomalyCountIsFlaggedPositions` | src/pages/Alerts.js:66 | the Active count is the number of positions in the loaded list that hold a flagged alert |
| `Alerts.SummaryCounts` | src/pages/Alerts.js:65-92 | Active is exactly the number of loaded alerts flagged as anomalies, so it is ≤ the number loaded, 0 iff none is flagged and all iff every one is; Acknowledged and Resolved are always 0 |
| `Alerts.RiskScoreOf` | src/pages/Alerts.js:123 | `aiAnalysis?.riskScore`: undefined when the analysis is, otherwise the analysis's score (itself possibly undefined) |
| `Alerts.CardScore` | src/pages/Alerts.js:123 | a missing analysis or score counts as 0, a present score as itself |
| `Alerts.RiskColor` | src/pages/Alerts.js:35-39 | the card is red for ≥ 70, orange for [50, 70), yellow below |
| `Alerts.CardColor` | src/pages/Alerts.js:123 | an alert card takes the colour of its score's band, the lowest one when the score is missing |
| `Alerts.BadgeColor` | src/pages/Alerts.js:140-146 | the badge shows the band of the score, with a missing score comparing false and landing in yellow |
| `Alerts.CardAgreesWithBadge` | src/pages/Alerts.js:123-146 | card colour and badge colour of an alert show the same band |
| `Alerts.MissingScoreIsLowest` | src/pages/Alerts.js:123-145 | without analysis or score, both card and badge are in the lowest band |
| `Alerts.TabLabel` | src/pages/Alerts.js:101 | the four tab captions, each one capitalised word of lower-case letters after the first |
| `Alerts.ToLower` | src/pages/Alerts.js:104-106 | `toLowerCase` on ASCII: same length, each character lower-cased |
| `Alerts.TabFilter` | src/pages/Alerts.js:101-104 | the tabs select "active", "acknowledged", "resolved" and "all" |
| `Alerts.FilterAfter` | src/pages/Alerts.js:8 | starting from 'active', whatever tabs are clicked, the filter is one of the four values |
| `Alerts.IsHighlighted` | src/pages/Alerts.js:106 | a tab is highlighted iff the filter equals its lower-cased label, which is one of the four filter values |
| `Alerts.HighlightedIsLastClicked` | src/pages/Alerts.js:101-108 | exactly one tab is highlighted: the last one clicked, or Active before any click |
| `RiskViews.SameScoreSameBand` | src/pages/Alerts.js:123 | the alert card's default of 0 for a missing score and the result view's undefined comparisons put the same optional score in the same band |
| `RiskViews.AlertAndResultViewAgree` | src/pages/Alerts.js:35-146 | the alert card (getRiskColor at lines 35-39 on the score defaulted to 0 at line 123), its badge (lines 140-146) and the waste-logging result view (src/pages/LogWaste.js lines 111-121) show the same band for the same, possibly missing, score |

## Left out

- Fetching the stats and alerts, `useEffect`, loading flags, reset with `window.confirm`, `alert`, and the form state and submit handlers of the waste-logging page: these are effects and UI plumbing.
- src/services/api.js, src/pages/Login.js, src/pages/Settings.js, src/App.js and src/components/Sidebar.js are not part of this model. They hold transport, sign-in, form plumbing and navigation; the 82% in the sidebar and settings pages is a literal.
- Server-side figures: `totalWasteToday`, `percentChange`, `activeAlerts`, the seven-day window, and the status filtering behind `getAlerts(filter)` are computed by the server and arrive as inputs.
- The weekday label of a date and `formatDate` depend on locale and time zone. The label is the parameter `dayName`; `formatDate` is not modelled.
- IEEE floating point: Math.round and toFixed are specified over exact reals. A NaN or a non-number quantity is not modelled.
- `null` values: `null` is treated like `undefined`. In the "vs yesterday" condition, a `null` percentChange would show a green "0%" rather than "No change".
- JavaScript objects list integer-like keys first. Weekday labels are never integer-like, so rows keep insertion order, as modelled. A waste type named `__proto__` is not modelled.
- Two dashboard texts only display server figures and are not modelled: the "Total Waste Today" figure, `totalWasteToday.toFixed(1)` or "0.0" (src/pages/Dashboard.js:139), and the "Active Alerts" card with its "anomalies detected" line (src/pages/Dashboard.js:165-167).
- The alert card's title, `alertMessage` or "Waste Anomaly Detected" (src/pages/Alerts.js:132), and its assessment text (src/pages/Alerts.js:161-164) are display text and are not modelled.
- The `expectedDaily > 0` guard at src/pages/Dashboard.js:287 is kept in `PerformancePct`, but its else branch is dead, because the expected load is the constant 50.

=== FILE: alerts.dfy ===
/** The alert center (src/pages/Alerts.js): summary counts over the
    loaded alerts, the colour of each alert card and of its score badge,
    and the status filter chosen with the tabs. */
module Alerts {
  import opened Common
  import opened RiskBands

  /** One loaded alert: a waste entry with its optional analysis. */
  datatype Alert = Alert(id: string, department: string, wasteType: string, aiAnalysis: Option<AiAnalysis>)

  // ---------------------------------------------------------------- summary cards

  /** `a.aiAnalysis?.anomalyDetected`: an alert without analysis is not
      flagged. */
  predicate IsAnomaly(alert: Alert)
    ensures alert.aiAnalysis.None? ==> !IsAnomaly(alert)
    ensures alert.aiAnalysis.Some? ==> (IsAnomaly(alert) <==> alert.aiAnalysis.value.anomalyDetected)
  {
    alert.aiAnalysis.Some? && alert.aiAnalysis.value.anomalyDetected
  }

  /** The loaded alerts whose analysis flags an anomaly, in order. */
  function AnomalyAlerts(alerts: seq<Alert>): (flagged: seq<Alert>)
    ensures |flagged| <= |alerts|
    ensures forall a :: a in flagged ==> a in alerts && IsAnomaly(a)
    ensures forall a :: a in alerts && IsAnomaly(a) ==> a in flagged
    ensures |flagged| == 0 <==> forall i :: 0 <= i < |alerts| ==> !IsAnomaly(alerts[i])
    ensures |flagged| == |alerts| <==> forall i :: 0 <= i < |alerts| ==> IsAnomaly(alerts[i])
  {
    if alerts == [] then []
    else (if IsAnomaly(alerts[0]) then [alerts[0]] else []) + AnomalyAlerts(alerts[1..])
  }

  /** The filter keeps every copy of a flagged alert and no copy of any
      other: it fixes the number of each alert, not only membership. */
  lemma {:induction false} AnomalyAlertsMultiplicity(alerts: seq<Alert>, a: Alert)
    ensures multiset(AnomalyAlerts(alerts))[a] == if IsAnomaly(a) then multiset(alerts)[a] else 0
  {
    if alerts != [] {
      assert alerts == [alerts[0]] + alerts[1..];
      AnomalyAlertsMultiplicity(alerts[1..], a);
    }
  }

  /** Filtering a concatenation counts each part separately. */
  lemma {:induction false} AnomalyCountAdditive(a: seq<Alert>, b: seq<Alert>)
    ensures |AnomalyAlerts(a + b)| == |AnomalyAlerts(a)| + |AnomalyAlerts(b)|
  {
    if a == [] {
      assert a + b == b;
    } else {
      assert (a + b)[0] == a[0];
      assert (a + b)[1..] == a[1..] + b;
      AnomalyCountAdditive(a[1..], b);
    }
  }

  /** The positions of the flagged alerts in the loaded list. */
  function FlaggedPositions(alerts: seq<Alert>): set<nat> {
    set i: nat | i < |alerts| && IsAnomaly(alerts[i])
  }

  /** A further alert adds one to the count when it is flagged. */
  lemma AnomalyCountSnoc(init: seq<Alert>, last: Alert)
    ensures |AnomalyAlerts(init + [last])| == |AnomalyAlerts(init)| + if IsAnomaly(last) then 1 else 0
  {
    AnomalyCountAdditive(init, [last]);
    assert AnomalyAlerts([last]) == if IsAnomaly(last) then [last] else [] by {
      assert [last][1..] == [];
    }
  }

  /** ... and adds its own position to the flagged ones. */
  lemma FlaggedPositionsSnoc(init: seq<Alert>, last: Alert)
    ensures |FlaggedPositions(init + [last])| == |FlaggedPositions(init)| + if IsAnomaly(last) then 1 else 0
  {
    var alerts, p, q := init + [last], FlaggedPositions(init), FlaggedPositions(init + [last]);
    var extra: set<nat> := if IsAnomaly(last) then {|init|} else {};
    forall i: nat
      ensures i in q <==> i in p + extra
    {
      if i < |init| {
        assert alerts[i] == init[i];
      }
    }
    assert q == p + extra;
    assert p !! extra;
  }

  /** The filter keeps one alert per flagged position. */
  lemma {:induction false} AnomalyCountIsFlaggedPositions(alerts: seq<Alert>)
    ensures |AnomalyAlerts(alerts)| == |FlaggedPositions(alerts)|
    decreases |alerts|
  {
    if alerts != [] {
      var init, last := alerts[..|alerts| - 1], alerts[|alerts| - 1];
      assert alerts == init + [last];
      AnomalyCountIsFlaggedPositions(init);
      AnomalyCountSnoc(init, last);
      FlaggedPositionsSnoc(init, last);
    }
  }

  /** The figures of the Active, Acknowledged and Resolved cards. */
  datatype Summary = Summary(active: nat, acknowledged: nat, resolved: nat)

  /** Active counts the anomaly-flagged alerts among those loaded; the
      Acknowledged and Resolved cards show a constant 0. */
  function SummaryCounts(alerts: seq<Alert>): (s: Summary)
    ensures s.active <= |alerts|
    ensures s.active == 0 <==> forall i :: 0 <= i < |alerts| ==> !IsAnomaly(alerts[i])
    ensures s.active == |alerts| <==> forall i :: 0 <= i < |alerts| ==> IsAnomaly(alerts[i])
    ensures s.active == |FlaggedPositions(alerts)|
    ensures s.acknowledged == 0 && s.resolved == 0
  {
    AnomalyCountIsFlaggedPositions(alerts);
    Summary(|AnomalyAlerts(alerts)|, 0, 0)
  }

  // ---------------------------------------------------------------- card and badge colours

  /** `alert.aiAnalysis?.riskScore`: missing when either part is. */
  function RiskScoreOf(alert: Alert): (score: Option<real>)
    ensures alert.aiAnalysis.None? ==> score.None?
    ensures alert.aiAnalysis.Some? ==> score == alert.aiAnalysis.value.riskScore
  {
    if alert.aiAnalysis.Some? then alert.aiAnalysis.value.riskScore else None
  }

  /** The score the card is coloured by: a missing score counts as 0. */
  function CardScore(alert: Alert): (score: real)
    ensures RiskScoreOf(alert).None? ==> score == 0.0
    ensures RiskScoreOf(alert).Some? ==> score == RiskScoreOf(alert).value
  {
    RiskScoreOf(alert).GetOr(0.0)
  }

  /** The card classes of each band. */
  function CardColorOf(band: Band): string {
    match band
    case High => "border-red-200 bg-red-50"
    case Medium => "border-orange-200 bg-orange-50"
    case Low => "border-yellow-200 bg-yellow-50"
  }

  /** The card classes tell the bands apart. */
  lemma CardColorsDistinct(b: Band, c: Band)
    ensures CardColorOf(b) == CardColorOf(c) <==> b == c
  {
  }

  /** getRiskColor of the alert center. */
  function RiskColor(score: real): (classes: string)
    ensures classes == CardColorOf(Classify(score))
  {
    if score >= 70.0 then "border-red-200 bg-red-50"
    else if score >= 50.0 then "border-orange-200 bg-orange-50"
    else "border-yellow-200 bg-yellow-50"
  }

  /** The classes of an alert card: the band of its score, 0 when missing. */
  function CardColor(alert: Alert): (classes: string)
    ensures classes == CardColorOf(Classify(CardScore(alert)))
    ensures RiskScoreOf(alert).None? ==> classes == CardColorOf(Low)
  {
    RiskColor(CardScore(alert))
  }

  /** The badge classes of each band. */
  function BadgeColorOf(band: Band): string {
    match band
    case High => "bg-red-500 text-white"
    case Medium => "bg-orange-500 text-white"
    case Low => "bg-yellow-500 text-white"
  }

  /** The badge classes tell the bands apart. */
  lemma BadgeColorsDistinct(b: Band, c: Band)
    ensures BadgeColorOf(b) == BadgeColorOf(c) <==> b == c
  {
  }

  /** The badge's nested conditional on the raw score. */
  function BadgeColor(alert: Alert): (classes: string)
    ensures classes == BadgeColorOf(Classify(CardScore(alert)))
  {
    if AtLeast(RiskScoreOf(alert), 70.0) then "bg-red-500 text-white"
    else if AtLeast(RiskScoreOf(alert), 50.0) then "bg-orange-500 text-white"
    else "bg-yellow-500 text-white"
  }

  /** Card and badge of one alert always show the same band. */
  lemma CardAgreesWithBadge(alert: Alert, band: Band)
    ensures CardColor(alert) == CardColorOf(band) <==> BadgeColor(alert) == BadgeColorOf(band)
  {
    var b := Classify(CardScore(alert));
    CardColorsDistinct(b, band);
    BadgeColorsDistinct(b, band);
  }

  /** An alert without analysis or without score is drawn in the lowest band. */
  lemma MissingScoreIsLowest(alert: Alert)
    requires RiskScoreOf(alert).None?
    ensures CardColor(alert) == CardColorOf(Low)
    ensures BadgeColor(alert) == BadgeColorOf(Low)
  {
  }

  // ---------------------------------------------------------------- status filter

  /** The four filter tabs, in the order they are drawn. */
  datatype Tab = ActiveTab | AcknowledgedTab | ResolvedTab | AllTab

  /** The tab captions: each is one capitalised word. */
  function TabLabel(tab: Tab): (caption: string)
    ensures |caption| > 0 && 'A' <= caption[0] <= 'Z'
    ensures forall i :: 1 <= i < |caption| ==> 'a' <= caption[i] <= 'z'
  {
    match tab
    case ActiveTab => "Active"
    case AcknowledgedTab => "Acknowledged"
    case ResolvedTab => "Resolved"
    case AllTab => "All"
  }

  /** String.prototype.toLowerCase on ASCII letters. */
  function LowerChar(c: char): char {
    if 'A' <= c <= 'Z' then (c as int + 32) as char else c
  }

  function ToLower(s: string): (r: string)
    ensures |r| == |s|
    ensures forall i :: 0 <= i < |s| ==> r[i] == LowerChar(s[i])
  {
    if s == [] then [] else [LowerChar(s[0])] + ToLower(s[1..])
  }

  /** The filter a tab selects: its label in lower case. */
  function TabFilter(tab: Tab): (filter: string)
    ensures filter == match tab
                      case ActiveTab => "active"
                      case AcknowledgedTab => "acknowledged"
                      case ResolvedTab => "resolved"
                      case AllTab => "all"
  {
    ToLower(TabLabel(tab))
  }

  const InitialFilter: string := "active"

  const FilterValues: set<string> := {"active", "acknowledged", "resolved", "all"}

  /** The filter state after the user clicked `clicks`, in order: it starts
      as 'active' and each click replaces it with that tab's filter. */
  function FilterAfter(clicks: seq<Tab>): (filter: string)
    ensures filter in FilterValues
  {
    if clicks == [] then InitialFilter else TabFilter(clicks[|clicks| - 1])
  }

  /** The tab that is drawn as selected: its lower-cased label is the filter. */
  predicate IsHighlighted(filter: string, tab: Tab)
    ensures IsHighlighted(filter, tab) <==> filter == TabFilter(tab)
    ensures IsHighlighted(filter, tab) ==> filter in FilterValues
  {
    filter == ToLower(TabLabel(tab))
  }

  /** Different tabs select different filters (the four differ in length). */
  lemma TabFilterInjective(s: Tab, t: Tab)
    requires TabFilter(s) == TabFilter(t)
    ensures s == t
  {
    assert |TabFilter(s)| == |TabFilter(t)|;
  }

  /** Exactly one tab is highlighted: the last one clicked, or Active
      before any click. */
  lemma HighlightedIsLastClicked(clicks: seq<Tab>, tab: Tab)
    ensures IsHighlighted(FilterAfter(clicks), tab) <==>
            tab == (if clicks == [] then ActiveTab else clicks[|clicks| - 1])
  {
    var last := if clicks == [] then ActiveTab else clicks[|clicks| - 1];
    assert FilterAfter(clicks) == TabFilter(last);
    assert IsHighlighted(FilterAfter(clicks), tab) == (TabFilter(last) == TabFilter(tab));
    if TabFilter(last) == TabFilter(tab) {
      TabFilterInjective(last, tab);
    }
  }
}

=== FILE: common.dfy ===
/** JavaScript values and number formatting used by the dashboard pages.
    Numbers are exact reals: IEEE rounding is not modelled, only the
    rounding rules of Math.round and Number.prototype.toFixed. */
module Common {

  /** A value that may be `undefined` (or `null`) on the JavaScript side. */
  datatype Option<T> = None | Some(value: T) {
    function GetOr(default: T): T {
      match this
      case Some(v) => v
      case None => default
    }
  }

  /** Math.round: the nearest integer, ties going towards +infinity. */
  function Round(x: real): (r: int)
    ensures x - 0.5 < r as real <= x + 0.5
  {
    (x + 0.5).Floor
  }

  lemma RoundMonotone(x: real, y: real)
    requires x <= y
    ensures Round(x) <= Round(y)
  {
  }

  /** The integer n for which x.toFixed(1) reads n / 10: toFixed rounds
      the magnitude half-up and puts the sign back in front. */
  function Tenths(x: real): (n: int)
    ensures x >= 0.0 ==> 10.0 * x - 0.5 < n as real <= 10.0 * x + 0.5
    ensures x < 0.0 ==> 10.0 * x - 0.5 <= n as real < 10.0 * x + 0.5
  {
    if x < 0.0 then -Round(-x * 10.0) else Round(x * 10.0)
  }

  /** Number(x.toFixed(1)): the value the one-decimal string denotes, a
      whole number of tenths nearest to x, a tie going away from zero. */
  function ToFixed1(x: real): (r: real)
    ensures (10.0 * r).Floor as real == 10.0 * r
    ensures x >= 0.0 ==> x - 0.05 < r <= x + 0.05
    ensures x < 0.0 ==> x - 0.05 <= r < x + 0.05
  {
    Tenths(x) as real / 10.0
  }

  /** toFixed rounds half away from zero, so it commutes with negation. */
  lemma ToFixed1Negate(x: real)
    ensures ToFixed1(-x) == -ToFixed1(x)
  {
  }

  /** A one-decimal rendering is positive exactly when x reaches 0.05. */
  lemma ToFixed1Positive(x: real)
    ensures ToFixed1(x) > 0.0 <==> x >= 0.05
  {
  }

  /** A JavaScript `>=` against a possibly undefined number: undefined
      compares false. */
  predicate AtLeast(x: Option<real>, bound: real)
    ensures x.None? ==> !AtLeast(x, bound)
    ensures x.Some? ==> (AtLeast(x, bound) <==> x.value >= bound)
  {
    x.Some? && x.value >= bound
  }

  /** The truthiness of a possibly undefined string: undefined and the
      empty string are falsy. */
  predicate Truthy(s: Option<string>) {
    s.Some? && s.value != ""
  }

  function Abs(x: real): (r: real)
    ensures r >= 0.0 && (r == x || r == -x)
  {
    if x < 0.0 then -x else x
  }

  /** Math.min(a, b) */
  function Min(a: real, b: real): (r: real)
    ensures r <= a && r <= b && (r == a || r == b)
  {
    if a <= b then a else b
  }

  /** `s.reduce((sum, x) => sum + f(x), 0)`; over exact reals the
      association order of the additions does not matter. */
  function Sum<T>(s: seq<T>, f: T -> real): (total: real)
    ensures (forall i :: 0 <= i < |s| ==> f(s[i]) >= 0.0) ==> total >= 0.0
  {
    if s == [] then 0.0 else f(s[0]) + Sum(s[1..], f)
  }

  lemma {:induction false} SumAppend<T>(a: seq<T>, b: seq<T>, f: T -> real)
    ensures Sum(a + b, f) == Sum(a, f) + Sum(b, f)
  {
    if a == [] {
      assert a + b == b;
    } else {
      assert (a + b)[1..] == a[1..] + b;
      SumAppend(a[1..], b, f);
    }
  }
}

=== FILE: dashboard.dfy ===
/** The figures the dashboard derives from the stats payload
    (src/pages/Dashboard.js): sustainability score, cost impact, the
    "vs yesterday" indicator and the department performance panel. */
module DashboardMetrics {
  import opened Common

  // ---------------------------------------------------------------- sustainability

  /** One entry of `stats.wasteComposition`: `{ _id: wasteType, quantity }`. */
  datatype CompositionItem = CompositionItem(id: string, quantity: real)

  /** The score shown when there is nothing to compute it from. */
  const FallbackScore: int := 82

  function ItemQuantity(item: CompositionItem): real {
    item.quantity
  }

  /** Σ quantity over the composition: the `reduce` that totals
      `wasteComposition` in calculateSustainabilityScore. */
  function CompositionTotal(items: seq<CompositionItem>): (total: real)
    ensures (forall i :: 0 <= i < |items| ==> items[i].quantity >= 0.0) ==> total >= 0.0
  {
    Sum(items, ItemQuantity)
  }

  /** The quantity of the FIRST entry with that id (a `find`), 0 when
      there is none or its quantity is falsy. */
  function FindQuantity(items: seq<CompositionItem>, id: string): (q: real)
    ensures (forall i :: 0 <= i < |items| ==> items[i].id != id) ==> q == 0.0
    ensures forall i :: 0 <= i < |items| && items[i].id == id && (forall j :: 0 <= j < i ==> items[j].id != id)
              ==> q == items[i].quantity
  {
    if items == [] then 0.0
    else if items[0].id == id then items[0].quantity
    else FindQuantity(items[1..], id)
  }

  /** `part / whole * 100`, the share of `part` in percent. */
  function Percentage(part: real, whole: real): (percent: real)
    requires whole != 0.0
    ensures 0.0 <= part <= whole ==> 0.0 <= percent <= 100.0
  {
    ShareWithinWhole(part, whole);
    part / whole * 100.0
  }

  lemma ShareWithinWhole(part: real, whole: real)
    requires whole != 0.0
    ensures 0.0 <= part <= whole ==> 0.0 <= part / whole <= 1.0
  {
    if 0.0 <= part <= whole {
      var q := part / whole;
      assert q * whole == part;
      assert (1.0 - q) * whole == whole - part;
    }
  }

  /** calculateSustainabilityScore: the Recyclable plus General share of
      the total, as a rounded percentage, or 82 when the composition is
      missing or sums to zero. */
  function SustainabilityScore(composition: Option<seq<CompositionItem>>): (score: int)
    ensures composition.None? ==> score == FallbackScore
    ensures composition.Some? && CompositionTotal(composition.value) == 0.0 ==> score == FallbackScore
    ensures composition.Some? && CompositionTotal(composition.value) != 0.0 ==>
              var items := composition.value;
              var percent := Percentage(FindQuantity(items, "Recyclable") + FindQuantity(items, "General"),
                                        CompositionTotal(items));
              percent - 0.5 < score as real <= percent + 0.5
  {
    if composition.None? then FallbackScore
    else
      var items := composition.value;
      var total := CompositionTotal(items);
      if total == 0.0 then FallbackScore
      else
        var recyclable := FindQuantity(items, "Recyclable");
        var general := FindQuantity(items, "General");
        var percent := Percentage(recyclable + general, total);
        assert percent - 0.5 < Round(percent) as real <= percent + 0.5;
        Round(percent)
  }

  /** The first-found quantities of two different ids never exceed the
      total when no quantity is negative. */
  lemma {:induction false} TwoFindsWithinTotal(items: seq<CompositionItem>, a: string, b: string)
    requires a != b
    requires forall i :: 0 <= i < |items| ==> items[i].quantity >= 0.0
    ensures 0.0 <= FindQuantity(items, a)
    ensures 0.0 <= FindQuantity(items, b)
    ensures FindQuantity(items, a) + FindQuantity(items, b) <= CompositionTotal(items)
  {
    if items != [] {
      var rest := items[1..];
      TwoFindsWithinTotal(rest, a, b);
      assert forall i :: 0 <= i < |rest| ==> rest[i].quantity >= 0.0;
    }
  }

  /** With non-negative quantities a computed score is a percentage. */
  lemma SustainabilityScoreInRange(composition: Option<seq<CompositionItem>>)
    requires composition.Some? ==>
               forall i :: 0 <= i < |composition.value| ==> composition.value[i].quantity >= 0.0
    ensures 0 <= SustainabilityScore(composition) <= 100
  {
    if composition.Some? && CompositionTotal(composition.value) != 0.0 {
      ComputedScoreInRange(composition.value);
    }
  }

  lemma ComputedScoreInRange(items: seq<CompositionItem>)
    requires forall i :: 0 <= i < |items| ==> items[i].quantity >= 0.0
    requires CompositionTotal(items) != 0.0
    ensures 0 <= SustainabilityScore(Some(items)) <= 100
  {
    var total := CompositionTotal(items);
    TwoFindsWithinTotal(items, "Recyclable", "General");
    var share := FindQuantity(items, "Recyclable") + FindQuantity(items, "General");
    assert 0.0 <= Percentage(share, total) <= 100.0;
  }

  /** Recyclable 30, General 20 and Sharps 50 kg score 50. */
  lemma SustainabilityScoreExample()
    ensures SustainabilityScore(Some([CompositionItem("Recyclable", 30.0),
                                      CompositionItem("General", 20.0),
                                      CompositionItem("Sharps", 50.0)])) == 50
  {
    var items := [CompositionItem("Recyclable", 30.0),
                  CompositionItem("General", 20.0),
                  CompositionItem("Sharps", 50.0)];
    assert CompositionTotal(items) == 100.0;
    assert FindQuantity(items, "General") == 20.0;
  }

  // ---------------------------------------------------------------- cost impact

  /** One entry of `stats.departmentPerformance`. */
  datatype DepartmentStat = DepartmentStat(id: string, totalQuantity: real, alertCount: Option<int>)

  /** The single rate applied to every department; the per-department
      `costPerKg` of the baselines is not consulted. */
  const FlatCostPerKg: real := 2.5

  function DepartmentQuantity(d: DepartmentStat): real {
    d.totalQuantity
  }

  /** Σ totalQuantity over the departments: the `reduce` that totals
      `departmentPerformance` in calculateCostImpact. */
  function TotalKg(depts: seq<DepartmentStat>): (total: real)
    ensures (forall i :: 0 <= i < |depts| ==> depts[i].totalQuantity >= 0.0) ==> total >= 0.0
  {
    Sum(depts, DepartmentQuantity)
  }

  /** calculateCostImpact: 0 without department data, otherwise the
      whole-currency amount nearest to 2.5 per kilogram. */
  function CostImpact(departmentPerformance: Option<seq<DepartmentStat>>): (cost: int)
    ensures departmentPerformance.None? ==> cost == 0
    ensures departmentPerformance.Some? ==>
              var exact := FlatCostPerKg * TotalKg(departmentPerformance.value);
              exact - 0.5 < cost as real <= exact + 0.5
  {
    if departmentPerformance.None? then 0
    else Round(TotalKg(departmentPerformance.value) * FlatCostPerKg)
  }

  /** The cost depends on nothing but the total kilograms, and grows with it. */
  lemma CostMonotoneInTotal(a: seq<DepartmentStat>, b: seq<DepartmentStat>)
    requires TotalKg(a) <= TotalKg(b)
    ensures CostImpact(Some(a)) <= CostImpact(Some(b))
    ensures TotalKg(a) == TotalKg(b) ==> CostImpact(Some(a)) == CostImpact(Some(b))
  {
    RoundMonotone(TotalKg(a) * FlatCostPerKg, TotalKg(b) * FlatCostPerKg);
  }

  /** Loading more departments never lowers the cost. */
  lemma CostGrowsWithDepartments(a: seq<DepartmentStat>, more: seq<DepartmentStat>)
    requires forall i :: 0 <= i < |more| ==> more[i].totalQuantity >= 0.0
    ensures CostImpact(Some(a)) <= CostImpact(Some(a + more))
  {
    SumAppend(a, more, DepartmentQuantity);
    assert TotalKg(more) >= 0.0;
    CostMonotoneInTotal(a, a + more);
  }

  // ---------------------------------------------------------------- vs yesterday

  /** What the "Total Waste Today" card shows under the figure. */
  datatype ChangeIndicator = NoChange | Up(percent: real) | Down(percent: real)

  /** The `percentChange` conditional under the figure: a red up arrow
      for a rise, a green down arrow for a fall, each with |percentChange|,
      and "No change" otherwise. */
  function ChangeIndicatorOf(percentChange: Option<real>): (c: ChangeIndicator)
    ensures c == NoChange <==> percentChange == None || percentChange == Some(0.0)
    ensures c.Up? <==> percentChange.Some? && percentChange.value > 0.0
    ensures c.Down? <==> percentChange.Some? && percentChange.value < 0.0
    ensures !c.NoChange? ==> c.percent > 0.0 && c.percent == Abs(percentChange.value)
  {
    if percentChange.Some? && percentChange.value != 0.0 then
      if percentChange.value > 0.0 then Up(Abs(percentChange.value)) else Down(Abs(percentChange.value))
    else NoChange
  }

  // ---------------------------------------------------------------- department panel

  /** The load every department is measured against. */
  const ExpectedDailyKg: real := 50.0

  /** `performance`: the saving against the expected load in percent, as
      the number its one-decimal string denotes. */
  function PerformancePct(totalKg: real): (p: real)
    ensures (10.0 * p).Floor as real == 10.0 * p
    ensures var exact := (ExpectedDailyKg - totalKg) / ExpectedDailyKg * 100.0;
            (exact >= 0.0 ==> exact - 0.05 < p <= exact + 0.05) &&
            (exact < 0.0 ==> exact - 0.05 <= p < exact + 0.05)
  {
    if ExpectedDailyKg > 0.0 then ToFixed1((ExpectedDailyKg - totalKg) / ExpectedDailyKg * 100.0) else 0.0
  }

  /** `isOverPerforming`, the saving read as a number and compared with
      0: a department is over-performing
      exactly when its load is at most 49.975 kg, where the one-decimal
      saving first reads above 0.0. */
  function IsOverPerforming(totalKg: real): (over: bool)
    ensures over <==> totalKg <= 49.975
  {
    ToFixed1Positive((ExpectedDailyKg - totalKg) / ExpectedDailyKg * 100.0);
    PerformancePct(totalKg) > 0.0
  }

  /** The width of the progress bar in percent, capped at 100. */
  function ProgressWidth(totalKg: real): (w: real)
    ensures w <= 100.0
    ensures totalKg <= ExpectedDailyKg ==> w == totalKg * 2.0
    ensures totalKg >= ExpectedDailyKg ==> w == 100.0
    ensures totalKg >= 0.0 ==> w >= 0.0
  {
    Min(totalKg / ExpectedDailyKg * 100.0, 100.0)
  }

  /** One department card: name, the signed percentage badge, the load
      text, the alert count and the progress bar. */
  datatype DepartmentRow = DepartmentRow(
    name: string,
    overPerforming: bool,
    sign: char,          // '-' on a green badge, '+' on a red one
    badgePercent: real,  // Math.abs(performance)
    shownKg: real,       // totalQuantity.toFixed(1)
    alertCount: int,     // the alert count, 0 when absent
    progress: real)

  /** One card of the panel, with every figure it shows: the badge is green
      with '-' exactly when the department is over-performing, and the
      sign and the magnitude together read the one-decimal excess load
      (total − 50) / 50 × 100: "+40.0%" for 70 kg, "-20.0%" for 40 kg. */
  function DepartmentCard(d: DepartmentStat): (row: DepartmentRow)
    ensures row.name == d.id
    ensures row.overPerforming <==> d.totalQuantity <= 49.975
    ensures row.sign == '-' <==> row.overPerforming
    ensures row.badgePercent >= 0.0
    ensures (if row.sign == '-' then -row.badgePercent else row.badgePercent)
            == ToFixed1((d.totalQuantity - ExpectedDailyKg) / ExpectedDailyKg * 100.0)
    ensures row.shownKg == ToFixed1(d.totalQuantity)
    ensures row.alertCount == d.alertCount.GetOr(0)
    ensures row.progress == ProgressWidth(d.totalQuantity)
  {
    ToFixed1Negate((ExpectedDailyKg - d.totalQuantity) / ExpectedDailyKg * 100.0);
    var over := IsOverPerforming(d.totalQuantity);
    DepartmentRow(d.id, over, if over then '-' else '+', Abs(PerformancePct(d.totalQuantity)),
                  ToFixed1(d.totalQuantity), d.alertCount.GetOr(0), ProgressWidth(d.totalQuantity))
  }

  /** The `departmentPerformance.map` of the Department Performance
      panel: nothing when the data is missing or empty, otherwise one card
      per department in order. */
  function DepartmentPanel(departmentPerformance: Option<seq<DepartmentStat>>): (cards: Option<seq<DepartmentRow>>)
    ensures cards.None? <==> departmentPerformance.None? || |departmentPerformance.value| == 0
    ensures cards.Some? ==>
              var depts := departmentPerformance.value;
              |cards.value| == |depts| &&
              forall i :: 0 <= i < |depts| ==>
                cards.value[i].name == depts[i].id &&
                (cards.value[i].overPerforming <==> depts[i].totalQuantity <= 49.975) &&
                (cards.value[i].sign == '-' <==> cards.value[i].overPerforming) &&
                (if cards.value[i].sign == '-' then -cards.value[i].badgePercent else cards.value[i].badgePercent)
                  == ToFixed1((depts[i].totalQuantity - ExpectedDailyKg) / ExpectedDailyKg * 100.0) &&
                cards.value[i].shownKg == ToFixed1(depts[i].totalQuantity) &&
                cards.value[i].alertCount == depts[i].alertCount.GetOr(0) &&
                cards.value[i].progress == ProgressWidth(depts[i].totalQuantity) &&
                cards.value[i].progress <= 100.0
  {
    if departmentPerformance.None? || |departmentPerformance.value| == 0 then None
    else
      var depts := departmentPerformance.value;
      Some(seq(|depts|, i requires 0 <= i < |depts| => DepartmentCard(depts[i])))
  }

  /** The scenario of a 70 kg ICU day: a 40% excess, not over-performing,
      the bar full. */
  lemma DepartmentCardExample()
    ensures var row := DepartmentCard(DepartmentStat("ICU", 70.0, None));
            PerformancePct(70.0) == -40.0 && !row.overPerforming && row.sign == '+' &&
            row.badgePercent == 40.0 && row.progress == 100.0 && row.alertCount == 0
  {
    assert Tenths(-400.0 / 10.0) == -400;
  }
}

=== FILE: logwaste.dfy ===
/** The analysis result view of the waste-logging page
    (src/pages/LogWaste.js): shown after a submission, it colours the
    panel and the badge by the risk score the server returned. */
module LogWaste {
  import opened Common
  import opened RiskBands

  /** The classes of the score panel, per band. */
  function PanelColorOf(band: Band): string {
    match band
    case High => "bg-red-50 border-red-200 text-red-800"
    case Medium => "bg-orange-50 border-orange-200 text-orange-800"
    case Low => "bg-green-50 border-green-200 text-green-800"
  }

  /** The band a possibly undefined score falls in: both comparisons are
      false on undefined, so it lands in the lowest band. */
  function ScoreBand(score: Option<real>): (band: Band)
    ensures score.None? ==> band == Low
    ensures score.Some? ==> band == Classify(score.value)
  {
    if score.Some? then Classify(score.value) else Low
  }

  /** The panel classes tell the bands apart. */
  lemma PanelColorsDistinct(b: Band, c: Band)
    ensures PanelColorOf(b) == PanelColorOf(c) <==> b == c
  {
  }

  /** getRiskColor of the result view. */
  function RiskColor(score: Option<real>): (classes: string)
    ensures classes == PanelColorOf(ScoreBand(score))
  {
    if AtLeast(score, 70.0) then "bg-red-50 border-red-200 text-red-800"
    else if AtLeast(score, 50.0) then "bg-orange-50 border-orange-200 text-orange-800"
    else "bg-green-50 border-green-200 text-green-800"
  }

  datatype RiskBadge = RiskBadge(text: string, color: string)

  /** The badge of each band. */
  function BadgeOf(band: Band): RiskBadge {
    match band
    case High => RiskBadge("High Risk", "bg-red-500")
    case Medium => RiskBadge("Medium Risk", "bg-orange-500")
    case Low => RiskBadge("Low Risk", "bg-green-500")
  }

  /** The badges tell the bands apart. */
  lemma BadgesDistinct(b: Band, c: Band)
    ensures BadgeOf(b) == BadgeOf(c) <==> b == c
  {
  }

  /** getRiskBadge. */
  function GetRiskBadge(score: Option<real>): (badge: RiskBadge)
    ensures badge == BadgeOf(ScoreBand(score))
    ensures badge.text == "High Risk" <==> AtLeast(score, 70.0)
    ensures badge.text == "Medium Risk" <==> AtLeast(score, 50.0) && !AtLeast(score, 70.0)
    ensures badge.text == "Low Risk" <==> !AtLeast(score, 50.0)
  {
    if AtLeast(score, 70.0) then RiskBadge("High Risk", "bg-red-500")
    else if AtLeast(score, 50.0) then RiskBadge("Medium Risk", "bg-orange-500")
    else RiskBadge("Low Risk", "bg-green-500")
  }

  /** The panel colour and the badge always name the same band:
      red with High, orange with Medium, green with Low. */
  lemma PanelAgreesWithBadge(score: Option<real>, band: Band)
    ensures RiskColor(score) == PanelColorOf(band) <==> GetRiskBadge(score) == BadgeOf(band)
  {
    PanelColorsDistinct(ScoreBand(score), band);
    BadgesDistinct(ScoreBand(score), band);
  }

  /** What the result view shows; `alertBox` is the text of the
      "Alert Created" box, `None` when the box is not drawn. */
  datatype ResultView = ResultView(score: Option<real>, panelColor: string, badge: RiskBadge, alertBox: Option<string>)

  /** The result view is rendered only when `showAnalysis` is set and an
      analysis is held; its panel and badge then share the score's band,
      and the "Alert Created" box appears only for a non-empty message. */
  function AnalysisView(showAnalysis: bool, aiAnalysis: Option<AiAnalysis>): (view: Option<ResultView>)
    ensures view.Some? <==> showAnalysis && aiAnalysis.Some?
    ensures view.Some? ==>
              var band := ScoreBand(aiAnalysis.value.riskScore);
              view.value.score == aiAnalysis.value.riskScore &&
              view.value.panelColor == PanelColorOf(band) && view.value.badge == BadgeOf(band)
    ensures view.Some? ==>
              var message := aiAnalysis.value.alertMessage;
              (view.value.alertBox.Some? <==> message.Some? && message.value != "") &&
              (view.value.alertBox.Some? ==> view.value.alertBox == message)
  {
    if showAnalysis && aiAnalysis.Some? then
      var a := aiAnalysis.value;
      Some(ResultView(a.riskScore, RiskColor(a.riskScore), GetRiskBadge(a.riskScore),
                      if Truthy(a.alertMessage) then a.alertMessage else None))
    else None
  }
}

=== FILE: risk.dfy ===
/** The risk bands the pages colour a 0-100 risk score with. Three copies
    of the same if-chain exist in the source (src/pages/LogWaste.js and
    twice in src/pages/Alerts.js); this is the one classifier they are
    each proved to agree with. */
module RiskBands {
  import opened Common

  datatype Band = Low | Medium | High

  /** The `aiAnalysis` object the server attaches to a waste entry, with
      the fields the pages read; a field the server may omit is an
      `Option`. */
  datatype AiAnalysis = AiAnalysis(
    riskScore: Option<real>,
    anomalyDetected: bool,
    assessment: Option<string>,
    recommendedAction: string,
    alertMessage: Option<string>)

  /** Lowest score of the high band (inclusive). */
  const HighFrom: real := 70.0
  /** Lowest score of the medium band (inclusive). */
  const MediumFrom: real := 50.0

  function Classify(score: real): (band: Band)
    ensures band == High <==> score >= HighFrom
    ensures band == Medium <==> MediumFrom <= score < HighFrom
    ensures band == Low <==> score < MediumFrom
  {
    if score >= HighFrom then High
    else if score >= MediumFrom then Medium
    else Low
  }

  function Severity(band: Band): (rank: nat)
    ensures rank <= 2
  {
    match band
    case Low => 0
    case Medium => 1
    case High => 2
  }

  /** A higher score never lands in a lower band. */
  lemma ClassifyMonotone(s: real, t: real)
    requires s <= t
    ensures Severity(Classify(s)) <= Severity(Classify(t))
  {
  }

  /** The boundary scores 50 and 70 belong to the higher band. */
  lemma ClassifyBoundaries()
    ensures Classify(MediumFrom) == Medium && Classify(HighFrom) == High
    ensures forall s :: s < MediumFrom ==> Classify(s) == Low
    ensures forall s :: MediumFrom <= s < HighFrom ==> Classify(s) == Medium
  {
  }
}

=== FILE: risk_views.dfy ===
/** The copies of the risk banding in the two pages, side by side. */
module RiskViews {
  import opened RiskBands
  import LogWaste
  import Alerts

  /** An alert card, its badge, and the result view of the same
      (possibly missing) score on the waste-logging page all show one
      band: `|| 0` on the alert card and an undefined comparison in the
      result view both land a missing score in the lowest band. */
  lemma AlertAndResultViewAgree(alert: Alerts.Alert, band: Band)
    ensures Alerts.CardColor(alert) == Alerts.CardColorOf(band)
            <==> LogWaste.RiskColor(Alerts.RiskScoreOf(alert)) == LogWaste.PanelColorOf(band)
    ensures Alerts.BadgeColor(alert) == Alerts.BadgeColorOf(band)
            <==> LogWaste.GetRiskBadge(Alerts.RiskScoreOf(alert)) == LogWaste.BadgeOf(band)
  {
    var b := Classify(Alerts.CardScore(alert));
    SameScoreSameBand(alert);
    Alerts.CardColorsDistinct(b, band);
    Alerts.BadgeColorsDistinct(b, band);
    LogWaste.PanelColorsDistinct(b, band);
    LogWaste.BadgesDistinct(b, band);
  }

  /** `|| 0` on the alert card and the undefined comparisons of the result
      view place the same alert's score in the same band. */
  lemma SameScoreSameBand(alert: Alerts.Alert)
    ensures Classify(Alerts.CardScore(alert)) == LogWaste.ScoreBand(Alerts.RiskScoreOf(alert))
  {
  }
}

=== FILE: trend.dfy ===
/** The 7-day trend chart of the dashboard (src/pages/Dashboard.js,
    getTrendChartData): the server's (date, waste type, quantity) items are
    pivoted into one chart row per weekday label. */
module DashboardTrend {
  import opened Common

  /** `item._id` of one server-side trend entry. */
  datatype TrendKey = TrendKey(date: string, wasteType: string)

  /** One entry of `stats.sevenDayTrend`. */
  datatype TrendItem = TrendItem(id: TrendKey, quantity: real)

  /** A property value of a chart row: the `day` label or a quantity. */
  datatype Cell = Text(s: string) | Num(q: real)

  /** A chart row is a plain JavaScript object: property name to value. */
  type Row = map<string, Cell>

  const DayField: string := "day"

  /** The row a label gets when it is first seen: `{ day: dayName }`. */
  function FreshRow(dayLabel: string): Row {
    map[DayField := Text(dayLabel)]
  }

  /** The weekday label of an item; `dayName` stands for
      `new Date(date).toLocaleDateString('en-US', { weekday: 'short' })`. */
  function LabelOf(item: TrendItem, dayName: string -> string): string {
    dayName(item.id.date)
  }

  /** The distinct labels of `items`, in the order they are first seen. */
  function Labels(items: seq<TrendItem>, dayName: string -> string): seq<string>
  {
    if items == [] then []
    else
      var ls := Labels(items[..|items| - 1], dayName);
      var l := LabelOf(items[|items| - 1], dayName);
      if l in ls then ls else ls + [l]
  }

  /** The row for `dayLabel` after every item has been written into it. */
  function Bucket(items: seq<TrendItem>, dayName: string -> string, dayLabel: string): Row
  {
    if items == [] then FreshRow(dayLabel)
    else
      var row := Bucket(items[..|items| - 1], dayName, dayLabel);
      var item := items[|items| - 1];
      if LabelOf(item, dayName) == dayLabel then row[item.id.wasteType := Num(item.quantity)] else row
  }

  /** The chart data: one row per first-seen label. */
  function Pivot(items: seq<TrendItem>, dayName: string -> string): seq<Row>
  {
    var ls := Labels(items, dayName);
    seq(|ls|, i requires 0 <= i < |ls| => Bucket(items, dayName, ls[i]))
  }

  /** getTrendChartData: fills `dateMap` item by item and returns its values
      in insertion order (`Object.values`). */
  method GetTrendChartData(sevenDayTrend: Option<seq<TrendItem>>, dayName: string -> string)
    returns (rows: seq<Row>)
    ensures sevenDayTrend.None? ==> rows == []
    ensures sevenDayTrend.Some? ==> rows == Pivot(sevenDayTrend.value, dayName)
  {
    if sevenDayTrend.None? {
      return [];
    }
    var items := sevenDayTrend.value;
    var dateMap: map<string, Row> := map[];
    var keys: seq<string> := [];  // the insertion order of dateMap's keys
    var n := 0;
    while n < |items|
      invariant 0 <= n <= |items|
      invariant keys == Labels(items[..n], dayName)
      invariant forall l :: l in dateMap <==> l in keys
      invariant forall l :: l in keys ==> dateMap[l] == Bucket(items[..n], dayName, l)
    {
      var item := items[n];
      var day := dayName(item.id.date);
      assert items[..n + 1][..n] == items[..n];
      assert items[..n + 1][n] == item;
      if day !in dateMap {
        BucketBeforeFirstSight(items[..n], dayName, day);
        dateMap := dateMap[day := FreshRow(day)];
        keys := keys + [day];
      }
      dateMap := dateMap[day := dateMap[day][item.id.wasteType := Num(item.quantity)]];
      n := n + 1;
    }
    assert items[..n] == items;
    rows := seq(|keys|, i requires 0 <= i < |keys| => dateMap[keys[i]]);
  }

  /** A label not seen yet still has the row it is created with. */
  lemma {:induction false} BucketBeforeFirstSight(items: seq<TrendItem>, dayName: string -> string, dayLabel: string)
    requires dayLabel !in Labels(items, dayName)
    ensures Bucket(items, dayName, dayLabel) == FreshRow(dayLabel)
  {
    if items != [] {
      var prefix := items[..|items| - 1];
      assert forall l :: l in Labels(prefix, dayName) ==> l in Labels(items, dayName);
      BucketBeforeFirstSight(prefix, dayName, dayLabel);
    }
  }

  /** Exactly the labels of the items get a row. */
  lemma {:induction false} LabelsComplete(items: seq<TrendItem>, dayName: string -> string, dayLabel: string)
    ensures dayLabel in Labels(items, dayName) <==>
            exists i :: 0 <= i < |items| && LabelOf(items[i], dayName) == dayLabel
  {
    if items != [] {
      var prefix := items[..|items| - 1];
      LabelsComplete(prefix, dayName, dayLabel);
      if exists i :: 0 <= i < |items| && LabelOf(items[i], dayName) == dayLabel {
        var i :| 0 <= i < |items| && LabelOf(items[i], dayName) == dayLabel;
        if i < |items| - 1 {
          assert prefix[i] == items[i];
        }
      }
      if exists i :: 0 <= i < |prefix| && LabelOf(prefix[i], dayName) == dayLabel {
        var i :| 0 <= i < |prefix| && LabelOf(prefix[i], dayName) == dayLabel;
        assert items[i] == prefix[i];
      }
    }
  }

  /** No label gets two rows. */
  lemma {:induction false} LabelsDistinct(items: seq<TrendItem>, dayName: string -> string)
    ensures forall i, j :: 0 <= i < j < |Labels(items, dayName)| ==>
              Labels(items, dayName)[i] != Labels(items, dayName)[j]
  {
    if items != [] {
      LabelsDistinct(items[..|items| - 1], dayName);
    }
  }

  /** Rows come in first-seen order: the first item of an earlier row's
      label precedes every item of a later row's label. */
  lemma {:induction false} LabelsFirstSeenOrder(items: seq<TrendItem>, dayName: string -> string, i: nat, j: nat)
    requires i < j < |Labels(items, dayName)|
    ensures exists p :: 0 <= p < |items| && LabelOf(items[p], dayName) == Labels(items, dayName)[i] &&
              forall q :: 0 <= q < |items| && LabelOf(items[q], dayName) == Labels(items, dayName)[j] ==> p < q
  {
    var last := |items| - 1;
    var prefix := items[..last];
    var ls, ps := Labels(items, dayName), Labels(prefix, dayName);
    var l := LabelOf(items[last], dayName);
    if l in ps {
      assert ls == ps;
      LabelsFirstSeenOrder(prefix, dayName, i, j);
      var p :| 0 <= p < |prefix| && LabelOf(prefix[p], dayName) == ps[i] &&
               forall q :: 0 <= q < |prefix| && LabelOf(prefix[q], dayName) == ps[j] ==> p < q;
      assert items[p] == prefix[p];
      forall q | 0 <= q < |items| && LabelOf(items[q], dayName) == ls[j]
        ensures p < q
      {
        if q < last {
          assert prefix[q] == items[q];
        }
      }
    } else {
      assert ls == ps + [l];
      if j < |ps| {
        LabelsFirstSeenOrder(prefix, dayName, i, j);
        var p :| 0 <= p < |prefix| && LabelOf(prefix[p], dayName) == ps[i] &&
                 forall q :: 0 <= q < |prefix| && LabelOf(prefix[q], dayName) == ps[j] ==> p < q;
        assert items[p] == prefix[p];
        forall q | 0 <= q < |items| && LabelOf(items[q], dayName) == ls[j]
          ensures p < q
        {
          if q < last {
            assert prefix[q] == items[q];
          } else {
            assert ls[j] == ps[j] && ps[j] in ps;
          }
        }
      } else {
        assert ls[j] == l;
        LabelsComplete(prefix, dayName, ps[i]);
        var p :| 0 <= p < |prefix| && LabelOf(prefix[p], dayName) == ps[i];
        assert items[p] == prefix[p];
        forall q | 0 <= q < |items| && LabelOf(items[q], dayName) == l
          ensures p < q
        {
          if q < last {
            assert prefix[q] == items[q];
            LabelsComplete(prefix, dayName, l);
          }
        }
      }
    }
  }

  /** A property is present in a row exactly when it is `day` or some
      item of that label has it as its waste type: types never seen for
      the day are absent, not zero-filled. */
  lemma {:induction false} BucketFields(items: seq<TrendItem>, dayName: string -> string, dayLabel: string, field: string)
    ensures field in Bucket(items, dayName, dayLabel) <==>
            field == DayField ||
            exists i :: 0 <= i < |items| && LabelOf(items[i], dayName) == dayLabel && items[i].id.wasteType == field
  {
    if items != [] {
      var last := |items| - 1;
      var prefix := items[..last];
      BucketFields(prefix, dayName, dayLabel, field);
      if exists i :: 0 <= i < |items| && LabelOf(items[i], dayName) == dayLabel && items[i].id.wasteType == field {
        var i :| 0 <= i < |items| && LabelOf(items[i], dayName) == dayLabel && items[i].id.wasteType == field;
        if i < last {
          assert prefix[i] == items[i];
        }
      }
      if exists i :: 0 <= i < |prefix| && LabelOf(prefix[i], dayName) == dayLabel && prefix[i].id.wasteType == field {
        var i :| 0 <= i < |prefix| && LabelOf(prefix[i], dayName) == dayLabel && prefix[i].id.wasteType == field;
        assert items[i] == prefix[i];
      }
    }
  }

  /** Last write wins: a field holds the quantity of the LAST item of that
      label and waste type; earlier quantities are overwritten, not summed. */
  lemma {:induction false} BucketLastWriteWins(items: seq<TrendItem>, dayName: string -> string, dayLabel: string, i: nat)
    requires i < |items| && LabelOf(items[i], dayName) == dayLabel
    requires forall j :: i < j < |items| && LabelOf(items[j], dayName) == dayLabel ==>
               items[j].id.wasteType != items[i].id.wasteType
    ensures items[i].id.wasteType in Bucket(items, dayName, dayLabel)
    ensures Bucket(items, dayName, dayLabel)[items[i].id.wasteType] == Num(items[i].quantity)
  {
    var last := |items| - 1;
    if i < last {
      var prefix := items[..last];
      assert prefix[i] == items[i];
      forall j | i < j < |prefix| && LabelOf(prefix[j], dayName) == dayLabel
        ensures prefix[j].id.wasteType != prefix[i].id.wasteType
      {
        assert prefix[j] == items[j];
      }
      BucketLastWriteWins(prefix, dayName, dayLabel, i);
    }
  }

  /** The `day` field holds the row's own label unless an item of that
      label carries the waste type "day", which overwrites it. */
  lemma {:induction false} BucketDayField(items: seq<TrendItem>, dayName: string -> string, dayLabel: string)
    requires forall i :: 0 <= i < |items| && LabelOf(items[i], dayName) == dayLabel ==>
               items[i].id.wasteType != DayField
    ensures DayField in Bucket(items, dayName, dayLabel)
    ensures Bucket(items, dayName, dayLabel)[DayField] == Text(dayLabel)
  {
    if items != [] {
      var prefix := items[..|items| - 1];
      forall i | 0 <= i < |prefix| && LabelOf(prefix[i], dayName) == dayLabel
        ensures prefix[i].id.wasteType != DayField
      {
        assert prefix[i] == items[i];
      }
      BucketDayField(prefix, dayName, dayLabel);
    }
  }

  /** No more rows than items, and at least one row as soon as there is
      an item: the chart is drawn exactly when the trend is non-empty. */
  lemma {:induction false} PivotSize(items: seq<TrendItem>, dayName: string -> string)
    ensures |Pivot(items, dayName)| <= |items|
    ensures |Pivot(items, dayName)| > 0 <==> |items| > 0
  {
    if items != [] {
      PivotSize(items[..|items| - 1], dayName);
    }
  }

  /** Two Sharps entries for the same weekday: the chart shows the second
      quantity alone, 4 kg, and not their sum. */
  lemma RepeatedEntryOverwrites(dayName: string -> string)
    requires dayName("2024-05-06") == "Mon"
    ensures Pivot([TrendItem(TrendKey("2024-05-06", "Sharps"), 3.0),
                   TrendItem(TrendKey("2024-05-06", "Sharps"), 4.0)], dayName)
            == [map[DayField := Text("Mon"), "Sharps" := Num(4.0)]]
  {
    var items := [TrendItem(TrendKey("2024-05-06", "Sharps"), 3.0),
                  TrendItem(TrendKey("2024-05-06", "Sharps"), 4.0)];
    assert items[..1][..0] == [] && items[..2] == items;
    assert Labels(items[..1], dayName) == ["Mon"];
    assert Labels(items, dayName) == ["Mon"];
    assert Bucket(items[..1], dayName, "Mon") == FreshRow("Mon")["Sharps" := Num(3.0)];
    var row := Bucket(items, dayName, "Mon");
    assert row == FreshRow("Mon")["Sharps" := Num(3.0)]["Sharps" := Num(4.0)];
    assert row == map[DayField := Text("Mon"), "Sharps" := Num(4.0)];
  }
}
